=== FILE: README.md ===
# Request derivation and endpoint metrics of a k6 API load test

This project models, in Dafny, the logic of the k6 load-test script `tests/api_test.js`:

- turning an exported request collection into the list of requests the test sends;
- the per-endpoint metrics the script keeps while it sends them.

It proves properties of that model.

- **Substitution** (`substitution.dfy`) models `replaceVariables`. For each collection variable, in list order, every `{{key}}` in the URL is replaced by the variable's value.
  - `ReplaceAll` is the literal, leftmost, non-overlapping global replacement that the script's `RegExp` replace performs for safe variables.
  - `ReplaceGlobal` is the search-and-splice loop of a global regular-expression replace, proved equal to `ReplaceAll`.
  - `Substitute` is the left fold over the variables, and `ReplaceVariables` is the script's loop, proved equal to it.
- **Collection** (`collection.dfy`) models `extractApiData`. Each item yields one entry with its name, method, substituted URL and query parameter map, in item order.
  - The script substitutes with the module-level `variables` (lines 13 and 38), not with its argument's `variable` list. The model reads the document's own list. The two agree because the only call (line 62) passes the same `postmanCollection`.
- **Metrics** (`metrics.dfy`) models three things:
  - the `customMetrics` registry: a duration trend and two counters per distinct endpoint name;
  - the GET/POST dispatch;
  - the recording of one response and one iteration of the default function over `apiList`.
- **Summary** (`summary.dfy`) models `handleSummary`. It projects the runtime's metric data onto the registered endpoint names.
- **Wrappers** (`wrappers.dfy`) holds `Option` and `Result`.

## Modelling decisions

- The script throws in several situations. Each one is modelled as an explicit error value:
  - An item without a `request` (a folder) throws at `request.method`. This is `MissingRequest` with the item's index.
  - A collection without a `variable` list throws in `replaceVariables` as soon as there is an item to resolve. This is `MissingVariables`.
  - A method other than `GET` or `POST` leaves `res` undefined, so the recording step throws and ends the iteration. This is `NoResponse`.
  - Recording for a name missing from the registry throws. This is `UnknownEndpoint`. The lookup `customMetrics[api.name]` is evaluated before the response is read, so an unregistered name is reported even when the method made no call (`Step`, `ExampleUnknownBeforeNoResponse`). The registry that the script builds from `apiList` always contains every name, so its own iteration never ends this way (`RegisteredRunNeverUnknown`).
- The script builds the regular expression from the key without escaping it, and passes the value as a replacement string. Literal replacement is faithful under two sufficient, conservative conditions:
  - the key contains no regular-expression metacharacter, and is either empty (`{{}}` is a literal pattern) or contains a character other than a digit or a comma (`{{3}}` would read `{3}` as a quantifier);
  - the value contains no `$` at all.

  `SafeVariables` states these conditions. It is the precondition of `ReplaceVariables` and `ExtractApiData`. The conditions are not necessary: they also exclude some inputs that the script treats literally. Examples are a value such as `US$`, where a `$` not followed by a pattern character stays literal; a key such as `a]`, since a lone `]` is literal in a non-unicode pattern; and a key such as `,5`, since `{,5}` is not a quantifier.
- A trend is modelled as the sequence of its samples and a counter as the sum of what was added to it. Durations are natural numbers.
- The HTTP transport is a parameter: `Run` takes one `Response(status, duration)` per entry of `apiList`.
- The runtime's `data.metrics` is any map from metric name to metric data. `Summary.Reports` describes the map the runtime hands over for a registry: the three metrics of every endpoint that recorded a request, and none for an endpoint that recorded nothing.
- When two variables share a key, the first variable's pass replaces every placeholder for the key present at that point. A later variable with the same key acts only on placeholders that this pass creates: from its own value, or from its value together with the text around it. So the first variable usually wins (`ExampleFirstDuplicateWins`), but not when its value rebuilds the placeholder (`ExampleDuplicateSeesRebuiltPlaceholder`). Last-write-wins does not apply to variables, only to query parameters.
- The summary's third field is named `http_reqs`, as the script writes it. It also reads the runtime's metric data rather than the registry itself. The model follows the script on both points.
- It is tempting to think that substituting twice equals substituting once when no value contains a placeholder. That is false. In `"{{a{{ab}}}}"`, the variable `ab → "b"` produces `"{{ab}}"`, and a second pass turns that into `"b"` (`ExampleNotIdempotent`). The property that does hold is idempotence once no listed placeholder remains in the result (`SubstituteIdempotentWhenResolved`).

## Model

| member | source | states |
|---|---|---|
| Substitution.Placeholder | tests/api_test.js:20 | the pattern for a key is the key between two opening and two closing braces, four characters longer than the key |
| Substitution.IndexOf | tests/api_test.js:20-21 | the search finds the leftmost occurrence at or after the start index, none earlier; it finds nothing exactly when no occurrence starts at or after that index |
| Substitution.ReplaceGlobal | tests/api_test.js:20-21 | the global replace loop (find the next match from the last index, copy the gap and the value, resume after the match) computes literal leftmost non-overlapping replacement |
| Substitution.ReplaceAllFirstMatch | tests/api_test.js:21 | the text before the leftmost match is kept, the match becomes the value verbatim, and scanning resumes after the match in the original text, so inserted values are not rescanned by the same pass |
| Substitution.ReplaceAllNoMatch | tests/api_test.js:21 | a string without the placeholder comes back unchanged |
| Substitution.ReplaceAllUnchangedIff | tests/api_test.js:21 | a pass leaves the string unchanged if and only if the placeholder does not occur or the value equals the placeholder |
| Substitution.ReplaceAllSplit | tests/api_test.js:21 | when no match crosses a boundary, replacing in a concatenation replaces in each part independently |
| Substitution.PlaceholderNotInOther | tests/api_test.js:20 | the placeholder of one safe key never contains the placeholder of another |
| Substitution.Substitute | tests/api_test.js:16-24 | with an empty variable list the URL is returned unchanged |
| Substitution.ReplaceVariables | tests/api_test.js:16-24 | the script's loop over the variables computes the left fold of one global replacement per variable, in list order |
| Substitution.SubstituteAppend | tests/api_test.js:18-22 | substituting with a concatenated variable list is substituting with the first part and then with the second on its output |
| Substitution.SubstituteLast | tests/api_test.js:18-22 | the last variable's pass runs on the output of all earlier variables, so later variables see earlier replacements |
| Substitution.SubstituteNoPlaceholder | tests/api_test.js:16-24 | a URL with no placeholder for any listed key is returned unchanged |
| Substitution.SubstituteKeepsUnlistedPlaceholder | tests/api_test.js:16-24 | a placeholder whose key is not listed stays verbatim, and the text on either side is substituted independently |
| Substitution.SubstituteIdempotentWhenResolved | tests/api_test.js:16-24 | once the result holds no placeholder of a listed key, substituting it again changes nothing |
| Substitution.ExampleHostUrl | tests/api_test.js:16-24 | `{{url}}/path` with `url = http://h` becomes `http://h/path` |
| Substitution.ExampleLaterSeesEarlier | tests/api_test.js:18-22 | a value that is itself a placeholder is resolved by a variable listed after it |
| Substitution.ExampleEarlierMissesLater | tests/api_test.js:18-22 | the same placeholder stays verbatim when its variable is listed before, so list order matters |
| Substitution.ExampleFirstDuplicateWins | tests/api_test.js:18-22 | with two variables for the key `k`, valued `1` and then `2`, `{{k}}` becomes `1`: the first variable wins |
| Substitution.ExampleDuplicateSeesRebuiltPlaceholder | tests/api_test.js:18-22 | with the key `k` valued the empty string and then `2`, `{{k{{k}}}}` becomes `2`: the first pass rebuilds `{{k}}` from the surrounding text, and the later variable with the same key replaces it |
| Substitution.ExampleNotIdempotent | tests/api_test.js:16-24 | a value can complete a placeholder with the text around it, so a second substitution can change the result even though no value contains a placeholder |
| Collection.BuildParams | tests/api_test.js:41-47 | the parameter keys are exactly the query keys, and each key maps to the value of its last occurrence in the query list |
| Collection.ExampleLastWins | tests/api_test.js:44-47 | the query `[a=1, a=2]` gives the parameters `{a: "2"}` |
| Collection.ExtractFrom | tests/api_test.js:31-56 | the items from an index on are flattened one entry per item in order, or the first item without a request (or the missing variable list) is reported |
| Collection.ExtractApiData | tests/api_test.js:27-59 | success exactly when every item has a request and a variable list exists if there is any item; the result then has the items' length and order, and entry `i` carries item `i`'s name, method, substituted raw URL, and a parameter map keyed by its query keys with last-wins values, empty when the query is absent; otherwise the error is the one the script throws first |
| Metrics.Register | tests/api_test.js:64-71 | the registry's keys are exactly the distinct endpoint names, and every entry has an empty duration series and zero counters |
| Metrics.ExampleRepeatedName | tests/api_test.js:65-66 | the names `A, B, A` give exactly the two keys `A` and `B` |
| Metrics.Dispatch | tests/api_test.js:81-85 | a call is made exactly for the methods `GET` and `POST` (case-sensitive); a GET fetches the URL, and a POST sends the parameters as a JSON body to the URL |
| Metrics.Record | tests/api_test.js:89-91 | recording for a registered name appends the duration to its series, adds one to its request count, and adds one to its failure count exactly when the status is not 200; no other endpoint and no key changes, and the request count stays equal to the number of samples; an unregistered name is an error |
| Metrics.ExampleRecordTwo | tests/api_test.js:89-91 | recording 120 with status 200 and then 80 with status 500 gives the series `[120, 80]`, one failure and two requests |
| Metrics.Step | tests/api_test.js:78-91 | an unregistered name ends the iteration on the registry lookup, whatever the method; for a registered name, an unsupported method ends it with no response, and otherwise the response is recorded under the name, so the entry succeeds exactly when a call is dispatched |
| Metrics.ExampleUnknownBeforeNoResponse | tests/api_test.js:89 | an unregistered name with the method `PUT` fails on the registry lookup, not on the missing response |
| Metrics.Run | tests/api_test.js:76-100 | an iteration keeps the registry's key set and the agreement between request counts and samples |
| Metrics.RunCompletesIff | tests/api_test.js:76-91 | over registered names, an iteration completes if and only if every method is GET or POST |
| Metrics.RunTotals | tests/api_test.js:76-91 | a completed iteration appends to each endpoint the durations of its entries' responses in order, adds its number of entries to its request count, and adds its number of non-200 responses to its failure count |
| Metrics.RunKnownStopsOnlyForNoResponse | tests/api_test.js:76-91 | over registered names, the only error that can end an iteration is a method that made no call |
| Metrics.RegisteredRunNeverUnknown | tests/api_test.js:64-91 | the iteration over the registry built from the same `apiList` never fails on the registry lookup |
| Metrics.RunAppend | tests/api_test.js:76-100 | running two parts of the list in sequence equals running them together, stopping at the first error |
| Metrics.RunStopsAtFirstUnsupported | tests/api_test.js:78-89 | over registered names, an iteration whose first unsupported method is at entry `i` records exactly the entries before `i` and then stops with that method |
| Summary.MetricNamesDistinct | tests/api_test.js:67-69 | the three metric names of an endpoint differ from each other and from those of every other endpoint |
| Summary.Lookup | tests/api_test.js:111-113 | a field is `{}` exactly when the runtime has no metric of that name, and otherwise it is that metric's data |
| Summary.HandleSummary | tests/api_test.js:104-115 | the summary has exactly the registered names as keys, and each entry holds the three fields, each looked up under that endpoint's metric name |
| Summary.SummaryOfReport | tests/api_test.js:104-115 | when the runtime reports the registry, each endpoint's entry holds its samples, failures and requests, or three empty objects if it recorded nothing |
| Summary.ExportReports | tests/api_test.js:67-69 | every registry has a runtime report: the metric map holding exactly the three metrics of each endpoint that recorded a request, each name read back to its own endpoint and kind |
| Summary.SummaryOfExport | tests/api_test.js:104-115 | under that report, each endpoint's summary entry holds its samples and totals, or three empty objects when it recorded nothing |
| Summary.SummaryAfterIteration | tests/api_test.js:104-115 | after one completed iteration from a fresh registry, the summary is keyed by the distinct endpoint names, and each entry holds its responses' durations in order, its number of non-200 responses and its number of requests |

## Left out

- File loading and parsing of the collection (`open`, `JSON.parse`, lines 11-13) are not modelled. The parsed document is the `Collection.Document` datatype. Its shape is taken as given: `item` is always present (without it, line 31 throws); each `url` is an object with a `raw` field; and every `name`, `method`, `key` and `value` is a string (a missing `value` would be inserted by line 21 as the text `undefined`).
- The HTTP transport (`http.get`, `http.post`) is not modelled. Responses are supplied by the caller, and the POST body is the parameter map rather than its JSON text.
- Several k6 runtime features are not modelled:
  - `check`, `sleep` and every `console.log`;
  - the three unused global metrics at lines 7-9;
  - metric-name validation when a metric is created;
  - the aggregation of samples across iterations and virtual users.

  `Summary.Reports` stands in for the runtime's reporting.
- Writing the summary as JSON text to stdout and to `json-summary.json` (lines 117-125) is not modelled.
- Float durations are not modelled; durations are natural numbers.
- Regular-expression behaviour is modelled only for the safe case. `SafeVariables` excludes every key with a metacharacter and every value with any `$`, including some that the script would still treat literally.
- JavaScript object details are not modelled: special keys such as `__proto__` in `params` and in the summary, and the insertion order of keys. Maps are used instead.
- Nested folders in the collection are not flattened. An item without a `request` is the error the script throws.
- Substitution.Substitute: its contract states only the empty-list case; the fold behaviour is stated by the lemmas about it.
- Metrics.Run: its contract states only the preserved key set and well-formedness. What an iteration records is stated by `RunTotals`, `RunCompletesIff` and `RunStopsAtFirstUnsupported`.

=== FILE: collection.dfy ===
/**
 * Flattening of the exported request collection into the script's `apiList`
 * (`extractApiData`): one entry per element of the collection's `item` list, in order, with the
 * item's name and method, its raw URL after variable substitution, and its query parameters as
 * a map in which a repeated key keeps its last value.
 *
 * The parsed document is modelled as a datatype. The script reads two optional parts of it
 * without a guard; when they are missing it throws, which is modelled as a `LoadError`:
 * an item without `request` (a folder) fails on `request.method`, and a collection without a
 * `variable` list fails as soon as the first URL is substituted.
 */
module Collection {
  import opened Wrappers
  import opened Substitution

  datatype QueryParam = QueryParam(key: string, value: string)

  /** `request.url`: the raw URL and the optional `query` list. */
  datatype Url = Url(raw: string, query: Option<seq<QueryParam>>)

  /** `request`: the HTTP method (`verb`, as `method` is a Dafny keyword) and the URL. */
  datatype Request = Request(verb: string, url: Url)

  /** An element of the collection's `item` list; a folder carries no `request`. */
  datatype Item = Item(name: string, request: Option<Request>)

  /** The parsed collection document. */
  datatype Document = Document(variable: Option<seq<Variable>>, item: seq<Item>)

  /** One element of `apiList`. */
  datatype ApiEntry = ApiEntry(name: string, verb: string, url: string, params: map<string, string>)

  /** Why loading the collection throws. */
  datatype LoadError = MissingRequest(index: nat) | MissingVariables

  /** The keys that occur in a query list. */
  function KeysOf(q: seq<QueryParam>): set<string> {
    set i | 0 <= i < |q| :: q[i].key
  }

  /** The entry at `i` is the last one in `q` with its key. */
  predicate LastWithKey(q: seq<QueryParam>, i: int) {
    0 <= i < |q| && forall j :: i < j < |q| ==> q[j].key != q[i].key
  }

  /**
   * The `params` object built by assigning `params[key] = value` for each query entry in order:
   * its keys are the query keys, and each key holds the value of its last entry.
   */
  function BuildParams(q: seq<QueryParam>): (params: map<string, string>)
    ensures params.Keys == KeysOf(q)
    ensures forall i :: LastWithKey(q, i) ==> params[q[i].key] == q[i].value
    decreases |q|
  {
    if |q| == 0 then map[]
    else
      var prior := BuildParams(q[..|q| - 1]);
      var last := q[|q| - 1];
      KeysOfSnoc(q);
      LastWithKeySnoc(q);
      prior[last.key := last.value]
  }

  lemma KeysOfSnoc(q: seq<QueryParam>)
    requires |q| > 0
    ensures KeysOf(q) == KeysOf(q[..|q| - 1]) + {q[|q| - 1].key}
  {
    var init := q[..|q| - 1];
    forall k | k in KeysOf(q) ensures k in KeysOf(init) + {q[|q| - 1].key} {
      var i :| 0 <= i < |q| && q[i].key == k;
      if i < |q| - 1 {
        assert init[i] == q[i];
      }
    }
    forall k | k in KeysOf(init) ensures k in KeysOf(q) {
      var i :| 0 <= i < |init| && init[i].key == k;
      assert q[i] == init[i];
    }
  }

  /** An entry before the last one that is last with its key is last with it in the prefix too. */
  lemma LastWithKeySnoc(q: seq<QueryParam>)
    requires |q| > 0
    ensures forall i :: 0 <= i < |q| - 1 && LastWithKey(q, i) ==>
              LastWithKey(q[..|q| - 1], i) && q[i].key != q[|q| - 1].key && q[..|q| - 1][i] == q[i]
  {
  }

  /** Example: the query `a=1, a=2` gives the parameters `{a: "2"}`, the repeated key's last value. */
  lemma ExampleLastWins()
    ensures BuildParams([QueryParam("a", "1"), QueryParam("a", "2")]) == map["a" := "2"]
  {
    var q := [QueryParam("a", "1"), QueryParam("a", "2")];
    assert LastWithKey(q, 1);
    assert q[0].key == "a";
    forall k | k in KeysOf(q) ensures k == "a" {
    }
  }

  /** Every item from index `k` on carries a request. */
  predicate RequestsFrom(d: Document, k: nat) {
    forall i :: k <= i < |d.item| ==> d.item[i].request.Some?
  }

  /** The first item at or after `k` without a request is at `j`. */
  predicate FirstMissingRequest(d: Document, k: nat, j: nat) {
    k <= j < |d.item| && d.item[j].request.None?
    && forall i :: k <= i < j ==> d.item[i].request.Some?
  }

  /** The `apiList` entry of an item: its name and method, substituted URL and query map. */
  function Resolve(name: string, req: Request, vars: seq<Variable>): ApiEntry {
    ApiEntry(name, req.verb, Substitute(req.url.raw, vars), BuildParams(req.url.query.GetOr([])))
  }

  /** `entries` is the flattening of the items from `k` on: one entry per item, in order. */
  predicate FlattensFrom(d: Document, vars: seq<Variable>, k: nat, entries: seq<ApiEntry>)
    requires RequestsFrom(d, k)
  {
    && k <= |d.item|
    && |entries| == |d.item| - k
    && forall i :: k <= i < |d.item| ==>
         entries[i - k] == Resolve(d.item[i].name, d.item[i].request.value, vars)
  }

  /** The loop of `extractApiData` over the items from index `k` on. */
  function ExtractFrom(d: Document, k: nat): (r: Result<seq<ApiEntry>, LoadError>)
    requires k <= |d.item|
    ensures r.Success? <==> RequestsFrom(d, k) && (k == |d.item| || d.variable.Some?)
    ensures r.Success? ==> FlattensFrom(d, d.variable.GetOr([]), k, r.value)
    ensures r.Failure? && d.variable.Some? ==>
              r.error.MissingRequest? && FirstMissingRequest(d, k, r.error.index)
    ensures r.Failure? && d.variable.None? ==>
              r.error == if d.item[k].request.None? then MissingRequest(k) else MissingVariables
    decreases |d.item| - k
  {
    if k == |d.item| then Success([])
    else if d.item[k].request.None? then Failure(MissingRequest(k))
    else if d.variable.None? then Failure(MissingVariables)
    else
      var req := d.item[k].request.value;
      var vars := d.variable.value;
      var entry := Resolve(d.item[k].name, req, vars);
      var tail := ExtractFrom(d, k + 1);
      if tail.Failure? then Failure(tail.error)
      else
        FlattensCons(d, vars, k, entry, tail.value);
        Success([entry] + tail.value)
  }

  /** Flattening item `k` in front of the flattening of the items after it. */
  lemma FlattensCons(d: Document, vars: seq<Variable>, k: nat, entry: ApiEntry, rest: seq<ApiEntry>)
    requires k < |d.item| && RequestsFrom(d, k)
    requires FlattensFrom(d, vars, k + 1, rest)
    requires entry == Resolve(d.item[k].name, d.item[k].request.value, vars)
    ensures FlattensFrom(d, vars, k, [entry] + rest)
  {
    var entries := [entry] + rest;
    forall i | k < i < |d.item| ensures entries[i - k] == rest[i - k - 1] && d.item[i].request.Some? {
    }
  }

  /**
   * `extractApiData`: the collection's items flattened in order, or the error the script would
   * throw first. A missing `query` list gives an empty parameter map.
   */
  function ExtractApiData(d: Document): (r: Result<seq<ApiEntry>, LoadError>)
    requires d.variable.Some? ==> SafeVariables(d.variable.value)
    ensures r.Success? <==> RequestsFrom(d, 0) && (|d.item| == 0 || d.variable.Some?)
    ensures r.Success? ==> |r.value| == |d.item|
    ensures r.Success? ==> forall i :: 0 <= i < |d.item| ==>
              var req := d.item[i].request.value;
              && r.value[i].name == d.item[i].name
              && r.value[i].verb == req.verb
              && r.value[i].url == Substitute(req.url.raw, d.variable.GetOr([]))
              && r.value[i].params.Keys == KeysOf(req.url.query.GetOr([]))
              && (forall j :: LastWithKey(req.url.query.GetOr([]), j) ==>
                    r.value[i].params[req.url.query.GetOr([])[j].key] == req.url.query.GetOr([])[j].value)
              && (req.url.query.None? ==> r.value[i].params == map[])
    ensures r.Failure? && d.variable.Some? ==>
              r.error.MissingRequest? && FirstMissingRequest(d, 0, r.error.index)
    ensures r.Failure? && d.variable.None? ==>
              r.error == if d.item[0].request.None? then MissingRequest(0) else MissingVariables
  {
    ExtractFrom(d, 0)
  }
}

=== FILE: metrics.dfy ===
/**
 * Per-endpoint metrics of the load test: the registry built once from `apiList` (`customMetrics`),
 * the choice of HTTP call for an entry, and what one iteration of the default function records.
 *
 * Each endpoint name owns a duration trend and two counters. A trend is modelled by the sequence
 * of samples added to it and a counter by the sum of what was added. The HTTP transport is not
 * modelled: the response of each call is supplied by the caller, one per entry of `apiList`.
 */
module Metrics {
  import opened Wrappers
  import opened Collection

  /** The samples held by the three metrics registered for one endpoint name. */
  datatype EndpointMetrics = EndpointMetrics(durations: seq<nat>, failed: nat, requests: nat)

  /** A freshly registered trend and two counters, with nothing added yet. */
  const Fresh := EndpointMetrics([], 0, 0)

  /** `customMetrics`: endpoint name to its metrics. */
  type Registry = map<string, EndpointMetrics>

  /** Every endpoint's request count matches its trend's samples and bounds its failures. */
  predicate WellFormed(reg: Registry) {
    forall name :: name in reg ==>
      reg[name].requests == |reg[name].durations| && reg[name].failed <= reg[name].requests
  }

  /** The endpoint names that occur in `apiList`. */
  function Names(apis: seq<ApiEntry>): set<string> {
    set i | 0 <= i < |apis| :: apis[i].name
  }

  /**
   * Registration: one entry per distinct name, all fresh. A repeated name is registered again
   * and still maps to fresh metrics.
   */
  function Register(apis: seq<ApiEntry>): (reg: Registry)
    ensures reg.Keys == Names(apis)
    ensures forall name :: name in reg ==> reg[name] == Fresh
    ensures WellFormed(reg)
    decreases |apis|
  {
    if |apis| == 0 then map[]
    else
      var init := apis[..|apis| - 1];
      assert forall i :: 0 <= i < |init| ==> init[i] == apis[i];
      assert Names(apis) == Names(init) + {apis[|apis| - 1].name};
      Register(init)[apis[|apis| - 1].name := Fresh]
  }

  /** Example: the names `A, B, A` register two endpoints, the repeated name only once. */
  lemma ExampleRepeatedName(a: ApiEntry, b: ApiEntry)
    requires a.name == "A" && b.name == "B"
    ensures Register([a, b, a]).Keys == {"A", "B"}
  {
    var apis := [a, b, a];
    assert apis[0].name == "A" && apis[1].name == "B";
    forall n | n in Names(apis) ensures n in {"A", "B"} {
    }
  }

  /** The two methods the script sends; any other method makes no call. */
  predicate Supported(verb: string) {
    verb == "GET" || verb == "POST"
  }

  /** An outgoing request: a GET of the URL, or a POST of the parameters as a JSON body. */
  datatype HttpCall =
    | Get(url: string)
    | Post(url: string, body: map<string, string>, contentType: string)

  const JsonContentType := "application/json"

  /** The request an entry sends, if any; the method is compared case-sensitively. */
  function Dispatch(api: ApiEntry): (call: Option<HttpCall>)
    ensures call.Some? <==> Supported(api.verb)
    ensures call.Some? ==> call.value.url == api.url
    ensures call.Some? ==> (call.value.Get? <==> api.verb == "GET")
    ensures call.Some? && call.value.Post? ==>
              call.value.body == api.params && call.value.contentType == JsonContentType
  {
    if api.verb == "GET" then Some(Get(api.url))
    else if api.verb == "POST" then Some(Post(api.url, api.params, JsonContentType))
    else None
  }

  /** What the script reads from a response: the status and `timings.duration`. */
  datatype Response = Response(status: int, duration: nat)

  /** Why an iteration stops early with a thrown error. */
  datatype IterationError =
    | NoResponse(verb: string)      // `res` is undefined for a method other than GET and POST
    | UnknownEndpoint(name: string) // `customMetrics[name]` is undefined

  /**
   * The recording step for one response: the duration is added to the endpoint's trend, the
   * failure counter grows by one exactly when the status is not 200, and the request counter
   * grows by one. No other endpoint changes.
   */
  function Record(reg: Registry, name: string, res: Response): (r: Result<Registry, IterationError>)
    ensures r.Success? <==> name in reg
    ensures r.Failure? ==> r.error == UnknownEndpoint(name)
    ensures r.Success? ==> r.value.Keys == reg.Keys
    ensures r.Success? ==> r.value[name].durations == reg[name].durations + [res.duration]
    ensures r.Success? ==> r.value[name].requests == reg[name].requests + 1
    ensures r.Success? ==> (r.value[name].failed == reg[name].failed + 1 <==> res.status != 200)
    ensures r.Success? ==> (r.value[name].failed == reg[name].failed <==> res.status == 200)
    ensures r.Success? ==> forall other :: other in reg && other != name ==> r.value[other] == reg[other]
    ensures r.Success? && WellFormed(reg) ==> WellFormed(r.value)
  {
    if name !in reg then Failure(UnknownEndpoint(name))
    else
      var m := reg[name];
      var failed := m.failed + if res.status != 200 then 1 else 0;
      Success(reg[name := EndpointMetrics(m.durations + [res.duration], failed, m.requests + 1)])
  }

  /**
   * Example: recording a 120 ms response with status 200 and then an 80 ms one with status 500
   * keeps both durations in call order, one failure and two requests.
   */
  lemma ExampleRecordTwo()
    ensures var r1 := Record(map["A" := Fresh], "A", Response(200, 120));
            r1.Success? &&
            var r2 := Record(r1.value, "A", Response(500, 80));
            r2.Success? && r2.value["A"] == EndpointMetrics([120, 80], 1, 2)
  {
  }

  /**
   * One entry of the iteration: send the call, then record its response. The recording statement
   * looks the endpoint up before it reads the response, so an unregistered name is reported even
   * when the method made no call.
   */
  function Step(reg: Registry, api: ApiEntry, res: Response): (r: Result<Registry, IterationError>)
    ensures api.name !in reg ==> r == Failure(UnknownEndpoint(api.name))
    ensures api.name in reg ==> (r.Success? <==> Dispatch(api).Some?)
    ensures api.name in reg && !Supported(api.verb) ==> r == Failure(NoResponse(api.verb))
    ensures api.name in reg && Supported(api.verb) ==> r == Record(reg, api.name, res)
  {
    if api.name !in reg then Failure(UnknownEndpoint(api.name))
    else
      match Dispatch(api)
      case None => Failure(NoResponse(api.verb))
      case Some(_) => Record(reg, api.name, res)
  }

  /** Example: an unregistered name with a method that makes no call fails on the lookup. */
  lemma ExampleUnknownBeforeNoResponse()
    ensures Step(map[], ApiEntry("x", "PUT", "u", map[]), Response(200, 1)) == Failure(UnknownEndpoint("x"))
  {
  }

  /** The registry after an iteration, and the error that ended it early, if any. */
  datatype Outcome = Outcome(registry: Registry, error: Option<IterationError>)

  /**
   * One iteration of the default function: the entries of `apiList` in order, `responses[i]`
   * answering entry `i`. A thrown error ends the iteration and keeps what was recorded before it.
   */
  function Run(reg: Registry, apis: seq<ApiEntry>, responses: seq<Response>): (o: Outcome)
    requires |responses| == |apis|
    ensures o.registry.Keys == reg.Keys
    ensures WellFormed(reg) ==> WellFormed(o.registry)
    decreases |apis|
  {
    if |apis| == 0 then Outcome(reg, None)
    else
      match Step(reg, apis[0], responses[0])
      case Failure(e) => Outcome(reg, Some(e))
      case Success(next) => Run(next, apis[1..], responses[1..])
  }

  /** Every entry names a registered endpoint. */
  predicate Known(reg: Registry, apis: seq<ApiEntry>) {
    forall i :: 0 <= i < |apis| ==> apis[i].name in reg
  }

  /** Every entry uses a method the script sends. */
  predicate AllSupported(apis: seq<ApiEntry>) {
    forall i :: 0 <= i < |apis| ==> Supported(apis[i].verb)
  }

  /** How many entries carry the endpoint name. */
  function CountFor(apis: seq<ApiEntry>, name: string): nat
    decreases |apis|
  {
    if |apis| == 0 then 0
    else (if apis[0].name == name then 1 else 0) + CountFor(apis[1..], name)
  }

  /** The durations of the responses to entries with the endpoint name, in order. */
  function DurationsFor(apis: seq<ApiEntry>, responses: seq<Response>, name: string): seq<nat>
    requires |responses| == |apis|
    decreases |apis|
  {
    if |apis| == 0 then []
    else (if apis[0].name == name then [responses[0].duration] else [])
         + DurationsFor(apis[1..], responses[1..], name)
  }

  /** How many entries with the endpoint name got a status other than 200. */
  function FailuresFor(apis: seq<ApiEntry>, responses: seq<Response>, name: string): nat
    requires |responses| == |apis|
    decreases |apis|
  {
    if |apis| == 0 then 0
    else (if apis[0].name == name && responses[0].status != 200 then 1 else 0)
         + FailuresFor(apis[1..], responses[1..], name)
  }

  /** A name that occurs in `apiList` is counted at least once. */
  lemma {:induction false} CountForPositive(apis: seq<ApiEntry>, name: string)
    ensures CountFor(apis, name) > 0 <==> name in Names(apis)
    decreases |apis|
  {
    if |apis| > 0 {
      CountForPositive(apis[1..], name);
      assert Names(apis) == {apis[0].name} + Names(apis[1..]) by {
        forall n | n in Names(apis) ensures n in {apis[0].name} + Names(apis[1..]) {
          var i :| 0 <= i < |apis| && apis[i].name == n;
          if i > 0 { assert apis[1..][i - 1] == apis[i]; }
        }
        forall n | n in Names(apis[1..]) ensures n in Names(apis) {
          var i :| 0 <= i < |apis[1..]| && apis[1..][i].name == n;
          assert apis[i + 1] == apis[1..][i];
        }
      }
    } else {
      assert Names(apis) == {};
    }
  }

  /** Over registered endpoints, an iteration completes exactly when every method is GET or POST. */
  lemma {:induction false} RunCompletesIff(reg: Registry, apis: seq<ApiEntry>, responses: seq<Response>)
    requires |responses| == |apis| && Known(reg, apis)
    ensures Run(reg, apis, responses).error.None? <==> AllSupported(apis)
    decreases |apis|
  {
    if |apis| > 0 && Supported(apis[0].verb) {
      var next := Record(reg, apis[0].name, responses[0]).value;
      assert Known(next, apis[1..]);
      RunCompletesIff(next, apis[1..], responses[1..]);
      assert AllSupported(apis) <==> AllSupported(apis[1..]);
    }
  }

  /**
   * Over registered names an iteration never stops on the registry lookup: the only error that
   * can end it is a method that made no call.
   */
  lemma {:induction false} RunKnownStopsOnlyForNoResponse(reg: Registry, apis: seq<ApiEntry>,
                                                          responses: seq<Response>)
    requires |responses| == |apis| && Known(reg, apis)
    ensures Run(reg, apis, responses).error.Some? ==> Run(reg, apis, responses).error.value.NoResponse?
    decreases |apis|
  {
    if |apis| > 0 && Supported(apis[0].verb) {
      var next := Record(reg, apis[0].name, responses[0]).value;
      assert Known(next, apis[1..]);
      RunKnownStopsOnlyForNoResponse(next, apis[1..], responses[1..]);
    }
  }

  /** The script's own iteration, over the registry built from `apiList`, never meets an unknown name. */
  lemma RegisteredRunNeverUnknown(apis: seq<ApiEntry>, responses: seq<Response>)
    requires |responses| == |apis|
    ensures var o := Run(Register(apis), apis, responses);
            o.error.Some? ==> o.error.value.NoResponse?
  {
    assert Known(Register(apis), apis);
    RunKnownStopsOnlyForNoResponse(Register(apis), apis, responses);
  }

  /** The first entry of a completed iteration is recorded, and the rest runs on the result. */
  lemma RunStep(reg: Registry, apis: seq<ApiEntry>, responses: seq<Response>)
    requires |responses| == |apis| > 0 && Known(reg, apis) && AllSupported(apis)
    ensures Record(reg, apis[0].name, responses[0]).Success?
    ensures var next := Record(reg, apis[0].name, responses[0]).value;
            && Run(reg, apis, responses) == Run(next, apis[1..], responses[1..])
            && Known(next, apis[1..]) && AllSupported(apis[1..])
  {
    assert Supported(apis[0].verb);
  }

  lemma SamplesAssoc(x: seq<nat>, y: seq<nat>, z: seq<nat>)
    ensures (x + y) + z == x + (y + z)
  {
  }

  /** A completed iteration appends to an endpoint's series the durations of its entries, in order. */
  lemma {:induction false} RunDurations(reg: Registry, apis: seq<ApiEntry>, responses: seq<Response>, name: string)
    requires |responses| == |apis| && Known(reg, apis) && AllSupported(apis) && name in reg
    ensures Run(reg, apis, responses).registry[name].durations
         == reg[name].durations + DurationsFor(apis, responses, name)
    decreases |apis|
  {
    if |apis| > 0 {
      RunStep(reg, apis, responses);
      var next := Record(reg, apis[0].name, responses[0]).value;
      RunDurations(next, apis[1..], responses[1..], name);
      var tail := DurationsFor(apis[1..], responses[1..], name);
      if apis[0].name == name {
        var d := [responses[0].duration];
        assert DurationsFor(apis, responses, name) == d + tail;
        assert next[name].durations == reg[name].durations + d;
        SamplesAssoc(reg[name].durations, d, tail);
      } else {
        assert DurationsFor(apis, responses, name) == tail;
        assert next[name] == reg[name];
      }
    }
  }

  /** A completed iteration adds to an endpoint's request count the number of its entries. */
  lemma {:induction false} RunRequests(reg: Registry, apis: seq<ApiEntry>, responses: seq<Response>, name: string)
    requires |responses| == |apis| && Known(reg, apis) && AllSupported(apis) && name in reg
    ensures Run(reg, apis, responses).registry[name].requests == reg[name].requests + CountFor(apis, name)
    decreases |apis|
  {
    if |apis| > 0 {
      RunStep(reg, apis, responses);
      var next := Record(reg, apis[0].name, responses[0]).value;
      RunRequests(next, apis[1..], responses[1..], name);
    }
  }

  /** A completed iteration adds to an endpoint's failure count the number of its non-200 responses. */
  lemma {:induction false} RunFailures(reg: Registry, apis: seq<ApiEntry>, responses: seq<Response>, name: string)
    requires |responses| == |apis| && Known(reg, apis) && AllSupported(apis) && name in reg
    ensures Run(reg, apis, responses).registry[name].failed
         == reg[name].failed + FailuresFor(apis, responses, name)
    decreases |apis|
  {
    if |apis| > 0 {
      RunStep(reg, apis, responses);
      var next := Record(reg, apis[0].name, responses[0]).value;
      RunFailures(next, apis[1..], responses[1..], name);
    }
  }

  /**
   * A completed iteration adds, to each endpoint, one request per entry with its name, that
   * entry's duration (in order) and one failure per non-200 status among them.
   */
  lemma RunTotals(reg: Registry, apis: seq<ApiEntry>, responses: seq<Response>, name: string)
    requires |responses| == |apis| && Known(reg, apis) && AllSupported(apis) && name in reg
    ensures var m := Run(reg, apis, responses).registry[name];
            && m.durations == reg[name].durations + DurationsFor(apis, responses, name)
            && m.requests == reg[name].requests + CountFor(apis, name)
            && m.failed == reg[name].failed + FailuresFor(apis, responses, name)
  {
    RunDurations(reg, apis, responses, name);
    RunRequests(reg, apis, responses, name);
    RunFailures(reg, apis, responses, name);
  }

  /** Running two parts of `apiList` one after the other is running them together. */
  lemma {:induction false} RunAppend(reg: Registry, a: seq<ApiEntry>, ra: seq<Response>,
                                     b: seq<ApiEntry>, rb: seq<Response>)
    requires |ra| == |a| && |rb| == |b|
    ensures var first := Run(reg, a, ra);
            Run(reg, a + b, ra + rb) ==
              if first.error.Some? then first else Run(first.registry, b, rb)
    decreases |a|
  {
    if |a| > 0 {
      assert (a + b)[0] == a[0] && (ra + rb)[0] == ra[0];
      assert (a + b)[1..] == a[1..] + b && (ra + rb)[1..] == ra[1..] + rb;
      match Step(reg, a[0], ra[0])
      case Failure(_) =>
      case Success(next) => RunAppend(next, a[1..], ra[1..], b, rb);
    } else {
      assert a + b == b && ra + rb == rb;
    }
  }

  /**
   * An iteration whose first unsupported method is at entry `i` records entries before `i`
   * exactly as a run over them alone, then stops with that method.
   */
  lemma RunStopsAtFirstUnsupported(reg: Registry, apis: seq<ApiEntry>, responses: seq<Response>, i: nat)
    requires |responses| == |apis| && Known(reg, apis)
    requires i < |apis| && !Supported(apis[i].verb) && AllSupported(apis[..i])
    ensures Run(reg, apis, responses) ==
              Outcome(Run(reg, apis[..i], responses[..i]).registry, Some(NoResponse(apis[i].verb)))
  {
    assert apis == apis[..i] + apis[i..] && responses == responses[..i] + responses[i..];
    RunAppend(reg, apis[..i], responses[..i], apis[i..], responses[i..]);
    assert Known(reg, apis[..i]);
    RunCompletesIff(reg, apis[..i], responses[..i]);
    assert apis[i..][0] == apis[i];
  }
}

=== FILE: substitution.dfy ===
/**
 * Placeholder substitution in request URLs (`replaceVariables` of the load-test script).
 *
 * For every collection variable, in list order, the script builds the regular expression
 * `{{key}}` with the global flag and replaces every match in the running string by the value.
 * For keys without regular-expression syntax and values without `$` replacement patterns this is
 * plain literal replacement: matches are found left to right, do not overlap, and the inserted
 * value is not scanned again by the same pass. `ReplaceAll` is that replacement, written as a
 * scan; `ReplaceGlobal` is the search-and-splice loop a regular-expression engine runs for it.
 */
module Substitution {
  import opened Wrappers

  /** One entry of the collection's `variable` list. */
  datatype Variable = Variable(key: string, value: string)

  /** The placeholder `{{key}}` that the pattern for `key` matches. */
  function Placeholder(key: string): (p: string)
    ensures |p| == |key| + 4
    ensures p[0] == '{' && p[1] == '{' && p[|key| + 2] == '}' && p[|key| + 3] == '}'
    ensures forall m :: 0 <= m < |key| ==> p[m + 2] == key[m]
  {
    "{{" + key + "}}"
  }

  /** Characters with a meaning in a regular expression, braces included. */
  predicate IsRegexMeta(c: char) {
    c in "\\^$.|?*+()[]{}"
  }

  /** Characters of a braced quantifier body such as `3` or `2,5`. */
  predicate IsQuantifierChar(c: char) {
    ('0' <= c <= '9') || c == ','
  }

  /**
   * Keys for which the pattern `{{key}}` surely denotes the literal placeholder: no
   * metacharacter, and not a quantifier body (`{{3}}` would read as `{` repeated three times).
   * The condition is sufficient, not necessary: some excluded keys, such as `a]`, are literal too.
   */
  predicate SafeKey(key: string) {
    && (forall m :: 0 <= m < |key| ==> !IsRegexMeta(key[m]))
    && (|key| == 0 || exists m :: 0 <= m < |key| && !IsQuantifierChar(key[m]))
  }

  /** Values with no `$` at all, so they are inserted verbatim; some values with a `$` would be too. */
  predicate SafeValue(value: string) {
    '$' !in value
  }

  predicate SafeKeys(vars: seq<Variable>) {
    forall i :: 0 <= i < |vars| ==> SafeKey(vars[i].key)
  }

  /** Variables for which the script's regular-expression replacement is literal replacement. */
  predicate SafeVariables(vars: seq<Variable>) {
    SafeKeys(vars) && forall i :: 0 <= i < |vars| ==> SafeValue(vars[i].value)
  }

  /** `pat` occurs in `s` starting at index `i`. */
  predicate MatchAt(s: string, pat: string, i: int) {
    0 <= i && i + |pat| <= |s| && s[i..i + |pat|] == pat
  }

  predicate Occurs(pat: string, s: string) {
    exists i :: 0 <= i <= |s| && MatchAt(s, pat, i)
  }

  /** The leftmost occurrence of `pat` in `s` at or after `from`, as a pattern search finds it. */
  function IndexOf(s: string, pat: string, from: nat): (r: Option<nat>)
    ensures r.Some? ==> from <= r.value && MatchAt(s, pat, r.value)
    ensures r.Some? ==> NoMatchBetween(s, pat, from, r.value)
    ensures r.None? <==> forall j :: from <= j ==> !MatchAt(s, pat, j)
    decreases |s| - from
  {
    if from + |pat| > |s| then None
    else if MatchAt(s, pat, from) then Some(from)
    else IndexOf(s, pat, from + 1)
  }

  /**
   * Literal global replacement of `pat` by `rep` in `s`: scanning left to right, a match is
   * replaced and scanning resumes after it; otherwise one character is kept.
   */
  function ReplaceAll(s: string, pat: string, rep: string): (r: string)
    requires |pat| > 0
    decreases |s|
  {
    if |s| < |pat| then s
    else if MatchAt(s, pat, 0) then rep + ReplaceAll(s[|pat|..], pat, rep)
    else [s[0]] + ReplaceAll(s[1..], pat, rep)
  }

  /** Scanning from `k` when fewer than `|pat|` characters are left keeps them. */
  lemma ScanShort(s: string, pat: string, rep: string, k: nat)
    requires |pat| > 0 && k <= |s| && |s| - k < |pat|
    ensures ReplaceAll(s[k..], pat, rep) == s[k..]
  {
  }

  /** Scanning from `k` at a match emits `rep` and resumes after the match. */
  lemma ScanMatch(s: string, pat: string, rep: string, k: nat)
    requires |pat| > 0 && MatchAt(s, pat, k)
    ensures ReplaceAll(s[k..], pat, rep) == rep + ReplaceAll(s[k + |pat|..], pat, rep)
  {
    var t := s[k..];
    assert t[0..|pat|] == s[k..k + |pat|];
    assert t[|pat|..] == s[k + |pat|..];
  }

  /** Scanning from `k` where no match starts keeps one character and moves on. */
  lemma ScanKeep(s: string, pat: string, rep: string, k: nat)
    requires |pat| > 0 && k < |s| && !MatchAt(s, pat, k)
    ensures ReplaceAll(s[k..], pat, rep) == [s[k]] + ReplaceAll(s[k + 1..], pat, rep)
  {
    var t := s[k..];
    assert t[1..] == s[k + 1..];
    if |t| >= |pat| {
      assert t[0..|pat|] == s[k..k + |pat|];
    } else {
      ScanShort(s, pat, rep, k + 1);
    }
  }

  /** A shorter replacement never lengthens the string, a longer one never shortens it. */
  lemma {:induction false} ReplaceAllLength(s: string, pat: string, rep: string)
    requires |pat| > 0
    ensures |rep| <= |pat| ==> |ReplaceAll(s, pat, rep)| <= |s|
    ensures |rep| >= |pat| ==> |ReplaceAll(s, pat, rep)| >= |s|
    decreases |s|
  {
    if |s| >= |pat| {
      if MatchAt(s, pat, 0) {
        ReplaceAllLength(s[|pat|..], pat, rep);
      } else {
        ReplaceAllLength(s[1..], pat, rep);
      }
    }
  }

  /** The characters of a match are the characters of the pattern. */
  lemma MatchChar(s: string, pat: string, i: int, m: int)
    ensures MatchAt(s, pat, i) && 0 <= m < |pat| ==> s[i + m] == pat[m]
  {
    if MatchAt(s, pat, i) && 0 <= m < |pat| {
      assert s[i..i + |pat|][m] == s[i + m];
    }
  }

  /** Scanning from `k` with no occurrence at or after `k` keeps the rest as it is. */
  lemma {:induction false} ReplaceFromNoMatch(s: string, pat: string, rep: string, k: nat)
    requires |pat| > 0 && k <= |s|
    requires forall j :: k <= j ==> !MatchAt(s, pat, j)
    ensures ReplaceAll(s[k..], pat, rep) == s[k..]
    decreases |s| - k
  {
    if k < |s| {
      ScanKeep(s, pat, rep, k);
      ReplaceFromNoMatch(s, pat, rep, k + 1);
      assert [s[k]] + s[k + 1..] == s[k..];
    }
  }

  /** A string without an occurrence of the pattern comes back unchanged. */
  lemma ReplaceAllNoMatch(s: string, pat: string, rep: string)
    requires |pat| > 0
    requires !Occurs(pat, s)
    ensures ReplaceAll(s, pat, rep) == s
  {
    ReplaceFromNoMatch(s, pat, rep, 0);
    assert s[0..] == s;
  }

  /** Replacing the pattern by itself changes nothing. */
  lemma {:induction false} ReplaceAllSelf(s: string, pat: string)
    requires |pat| > 0
    ensures ReplaceAll(s, pat, pat) == s
    decreases |s|
  {
    if |s| >= |pat| {
      if MatchAt(s, pat, 0) {
        ReplaceAllSelf(s[|pat|..], pat);
        assert s == pat + s[|pat|..];
      } else {
        ReplaceAllSelf(s[1..], pat);
      }
    }
  }

  /** No occurrence of `pat` in `s` starts at an index in `[from, to)`. */
  predicate NoMatchBetween(s: string, pat: string, from: int, to: int) {
    forall j :: from <= j < to ==> !MatchAt(s, pat, j)
  }

  /**
   * Scanning from index `k`, the leftmost match at `i` decides the result: the text before it is
   * kept, the match becomes `rep` verbatim, and scanning resumes right after the match.
   */
  lemma {:induction false} ReplaceFromFirstMatch(s: string, pat: string, rep: string, k: nat, i: nat)
    requires |pat| > 0 && k <= i
    requires MatchAt(s, pat, i)
    requires NoMatchBetween(s, pat, k, i)
    ensures ReplaceAll(s[k..], pat, rep) == s[k..i] + rep + ReplaceAll(s[i + |pat|..], pat, rep)
    decreases i - k
  {
    if k == i {
      ScanMatch(s, pat, rep, k);
      assert s[k..i] == [];
    } else {
      ReplaceFromFirstMatch(s, pat, rep, k + 1, i);
      FirstMatchKeepStep(s, pat, rep, k, i);
    }
  }

  /** The step of `ReplaceFromFirstMatch` before the match: the character at `k` is kept. */
  lemma FirstMatchKeepStep(s: string, pat: string, rep: string, k: nat, i: nat)
    requires |pat| > 0 && k < i && MatchAt(s, pat, i) && !MatchAt(s, pat, k)
    requires ReplaceAll(s[k + 1..], pat, rep) == s[k + 1..i] + rep + ReplaceAll(s[i + |pat|..], pat, rep)
    ensures ReplaceAll(s[k..], pat, rep) == s[k..i] + rep + ReplaceAll(s[i + |pat|..], pat, rep)
  {
    ScanKeep(s, pat, rep, k);
    assert [s[k]] + s[k + 1..i] == s[k..i];
    Assoc([s[k]], s[k + 1..i] + rep, ReplaceAll(s[i + |pat|..], pat, rep));
    Assoc([s[k]], s[k + 1..i], rep);
  }

  /**
   * The leftmost match decides the result: the text before it is kept, the match becomes
   * `rep` verbatim, and scanning resumes right after the match in the original string.
   */
  lemma ReplaceAllFirstMatch(s: string, pat: string, rep: string, i: nat)
    requires |pat| > 0
    requires MatchAt(s, pat, i)
    requires NoMatchBetween(s, pat, 0, i)
    ensures ReplaceAll(s, pat, rep) == s[..i] + rep + ReplaceAll(s[i + |pat|..], pat, rep)
  {
    ReplaceFromFirstMatch(s, pat, rep, 0, i);
    assert s[0..] == s;
  }

  /** Two strings that start with different blocks whose lengths the rests follow differ. */
  lemma DifferentStarts(rep: string, x: string, pat: string, rest: string)
    requires rep != pat
    requires |rep| <= |pat| ==> |x| <= |rest|
    requires |rep| >= |pat| ==> |x| >= |rest|
    ensures rep + x != pat + rest
  {
    if |rep| == |pat| {
      assert (rep + x)[..|rep|] == rep;
      assert (pat + rest)[..|pat|] == pat;
    }
  }

  lemma CommonPrefix(p: string, v: string, w: string)
    requires v != w
    ensures p + v != p + w
  {
    assert (p + v)[|p|..] == v;
    assert (p + w)[|p|..] == w;
  }

  /** A pass leaves the string unchanged exactly when the pattern is absent or maps to itself. */
  lemma ReplaceAllUnchangedIff(s: string, pat: string, rep: string)
    requires |pat| > 0
    ensures ReplaceAll(s, pat, rep) == s <==> (rep == pat || !Occurs(pat, s))
  {
    if rep == pat {
      ReplaceAllSelf(s, pat);
    } else if !Occurs(pat, s) {
      ReplaceAllNoMatch(s, pat, rep);
    } else {
      var i := IndexOf(s, pat, 0).value;
      var rest := s[i + |pat|..];
      var x := ReplaceAll(rest, pat, rep);
      ReplaceAllFirstMatch(s, pat, rep, i);
      ReplaceAllLength(rest, pat, rep);
      DifferentStarts(rep, x, pat, rest);
      CommonPrefix(s[..i], rep + x, pat + rest);
      assert s == s[..i] + (pat + rest);
    }
  }

  lemma Assoc(x: string, y: string, z: string)
    ensures x + (y + z) == x + y + z
  {
  }

  lemma AppendAssoc(a: string, b: string, c: string, d: string)
    ensures a + b + c + d == a + (b + c + d)
  {
  }

  /**
   * The replacement as a search loop: find the next match from the last index, copy the gap
   * and the value, resume after the match; copy the tail once no match is left.
   */
  method ReplaceGlobal(s: string, pat: string, rep: string) returns (r: string)
    requires |pat| > 0
    ensures r == ReplaceAll(s, pat, rep)
  {
    r := [];
    var lastIndex := 0;
    var next := IndexOf(s, pat, 0);
    assert r + ReplaceAll(s[0..], pat, rep) == ReplaceAll(s, pat, rep) by {
      assert s[0..] == s;
    }
    while next.Some?
      invariant lastIndex <= |s|
      invariant next.Some? ==> lastIndex <= next.value && MatchAt(s, pat, next.value)
      invariant next.Some? ==> NoMatchBetween(s, pat, lastIndex, next.value)
      invariant next.None? ==> forall j :: lastIndex <= j ==> !MatchAt(s, pat, j)
      invariant r + ReplaceAll(s[lastIndex..], pat, rep) == ReplaceAll(s, pat, rep)
      decreases |s| - lastIndex
    {
      var m := next.value;
      ghost var rest := ReplaceAll(s[m + |pat|..], pat, rep);
      ReplaceFromFirstMatch(s, pat, rep, lastIndex, m);
      AppendAssoc(r, s[lastIndex..m], rep, rest);
      r := r + s[lastIndex..m] + rep;
      lastIndex := m + |pat|;
      assert r + rest == ReplaceAll(s, pat, rep);
      assert s[lastIndex..] == s[m + |pat|..];
      assert ReplaceAll(s[lastIndex..], pat, rep) == rest;
      next := IndexOf(s, pat, lastIndex);
    }
    ReplaceFromNoMatch(s, pat, rep, lastIndex);
    r := r + s[lastIndex..];
  }

  /**
   * `replaceVariables`: a left fold of one replacement pass per variable, in list order, each
   * pass working on the output of the previous ones.
   */
  function Substitute(template: string, vars: seq<Variable>): (r: string)
    ensures |vars| == 0 ==> r == template
    decreases |vars|
  {
    if |vars| == 0 then template
    else Substitute(ReplaceAll(template, Placeholder(vars[0].key), vars[0].value), vars[1..])
  }

  /** The script's loop over the variables, one global replacement per variable. */
  method ReplaceVariables(url: string, variables: seq<Variable>) returns (replacedUrl: string)
    requires SafeVariables(variables)
    ensures replacedUrl == Substitute(url, variables)
  {
    replacedUrl := url;
    var i := 0;
    while i < |variables|
      invariant i <= |variables|
      invariant Substitute(replacedUrl, variables[i..]) == Substitute(url, variables)
    {
      var v := variables[i];
      replacedUrl := ReplaceGlobal(replacedUrl, Placeholder(v.key), v.value);
      assert variables[i..][1..] == variables[i + 1..];
      i := i + 1;
    }
  }

  /** Substituting with a concatenated list is substituting with each part in turn. */
  lemma {:induction false} SubstituteAppend(t: string, v1: seq<Variable>, v2: seq<Variable>)
    ensures Substitute(t, v1 + v2) == Substitute(Substitute(t, v1), v2)
    decreases |v1|
  {
    if |v1| > 0 {
      var t' := ReplaceAll(t, Placeholder(v1[0].key), v1[0].value);
      assert (v1 + v2)[1..] == v1[1..] + v2;
      SubstituteAppend(t', v1[1..], v2);
    } else {
      assert v1 + v2 == v2;
    }
  }

  /** The last variable's pass runs on everything the earlier variables produced. */
  lemma SubstituteLast(t: string, vars: seq<Variable>, v: Variable)
    ensures Substitute(t, vars + [v]) == ReplaceAll(Substitute(t, vars), Placeholder(v.key), v.value)
  {
    SubstituteAppend(t, vars, [v]);
  }

  /** A template with no placeholder for any listed key comes back unchanged. */
  lemma {:induction false} SubstituteNoPlaceholder(t: string, vars: seq<Variable>)
    requires forall i :: 0 <= i < |vars| ==> !Occurs(Placeholder(vars[i].key), t)
    ensures Substitute(t, vars) == t
    decreases |vars|
  {
    if |vars| > 0 {
      ReplaceAllNoMatch(t, Placeholder(vars[0].key), vars[0].value);
      SubstituteNoPlaceholder(t, vars[1..]);
    }
  }

  /** Once no listed placeholder is left, substituting again changes nothing. */
  lemma SubstituteIdempotentWhenResolved(t: string, vars: seq<Variable>)
    requires forall i :: 0 <= i < |vars| ==> !Occurs(Placeholder(vars[i].key), Substitute(t, vars))
    ensures Substitute(Substitute(t, vars), vars) == Substitute(t, vars)
  {
    SubstituteNoPlaceholder(Substitute(t, vars), vars);
  }

  /** No occurrence of `pat` in `s` starts before `cut` and ends after it. */
  predicate NoMatchAcross(s: string, pat: string, cut: int) {
    forall i :: 0 <= i < cut < i + |pat| ==> !MatchAt(s, pat, i)
  }

  /**
   * Scanning `a + b` from `k` inside `a`, when no occurrence crosses the end of `a`, is scanning
   * the rest of `a` and then `b` on its own.
   */
  lemma {:induction false} ReplaceFromSplit(a: string, b: string, pat: string, rep: string, k: nat)
    requires |pat| > 0 && k <= |a|
    requires NoMatchAcross(a + b, pat, |a|)
    ensures ReplaceAll((a + b)[k..], pat, rep) == ReplaceAll(a[k..], pat, rep) + ReplaceAll(b, pat, rep)
    decreases |a| - k
  {
    if k == |a| || |a + b| - k < |pat| {
      SplitEndStep(a, b, pat, rep, k);
    } else if MatchAt(a + b, pat, k) {
      ReplaceFromSplit(a, b, pat, rep, k + |pat|);
      SplitMatchStep(a, b, pat, rep, k);
    } else {
      ReplaceFromSplit(a, b, pat, rep, k + 1);
      SplitKeepStep(a, b, pat, rep, k);
    }
  }

  /** The base cases of `ReplaceFromSplit`: at the end of `a`, or too little text left for a match. */
  lemma SplitEndStep(a: string, b: string, pat: string, rep: string, k: nat)
    requires |pat| > 0 && k <= |a| && (k == |a| || |a + b| - k < |pat|)
    ensures ReplaceAll((a + b)[k..], pat, rep) == ReplaceAll(a[k..], pat, rep) + ReplaceAll(b, pat, rep)
  {
    var s := a + b;
    if k == |a| {
      assert s[k..] == b;
      assert a[k..] == [];
    } else {
      ScanShort(s, pat, rep, k);
      ScanShort(a, pat, rep, k);
      assert s[k..] == a[k..] + b;
    }
  }

  /** The match case of `ReplaceFromSplit`: a match at `k` lies within `a`. */
  lemma SplitMatchStep(a: string, b: string, pat: string, rep: string, k: nat)
    requires |pat| > 0 && k < |a| && MatchAt(a + b, pat, k)
    requires NoMatchAcross(a + b, pat, |a|)
    requires ReplaceAll((a + b)[k + |pat|..], pat, rep)
          == ReplaceAll(a[k + |pat|..], pat, rep) + ReplaceAll(b, pat, rep)
    ensures ReplaceAll((a + b)[k..], pat, rep) == ReplaceAll(a[k..], pat, rep) + ReplaceAll(b, pat, rep)
  {
    var s := a + b;
    assert a[k..k + |pat|] == s[k..k + |pat|];
    ScanMatch(s, pat, rep, k);
    ScanMatch(a, pat, rep, k);
    Assoc(rep, ReplaceAll(a[k + |pat|..], pat, rep), ReplaceAll(b, pat, rep));
  }

  /** The keep case of `ReplaceFromSplit`: no match at `k`, in `a + b` or in `a`. */
  lemma SplitKeepStep(a: string, b: string, pat: string, rep: string, k: nat)
    requires |pat| > 0 && k < |a| && !MatchAt(a + b, pat, k)
    requires ReplaceAll((a + b)[k + 1..], pat, rep) == ReplaceAll(a[k + 1..], pat, rep) + ReplaceAll(b, pat, rep)
    ensures ReplaceAll((a + b)[k..], pat, rep) == ReplaceAll(a[k..], pat, rep) + ReplaceAll(b, pat, rep)
  {
    var s := a + b;
    if |a| - k >= |pat| {
      assert a[k..k + |pat|] == s[k..k + |pat|];
    }
    assert s[k] == a[k];
    ScanKeep(s, pat, rep, k);
    ScanKeep(a, pat, rep, k);
    Assoc([a[k]], ReplaceAll(a[k + 1..], pat, rep), ReplaceAll(b, pat, rep));
  }

  /**
   * If no occurrence of `pat` crosses the boundary between `a` and `b`, replacing in the
   * concatenation is replacing in each part.
   */
  lemma ReplaceAllSplit(a: string, b: string, pat: string, rep: string)
    requires |pat| > 0
    requires NoMatchAcross(a + b, pat, |a|)
    ensures ReplaceAll(a + b, pat, rep) == ReplaceAll(a, pat, rep) + ReplaceAll(b, pat, rep)
  {
    ReplaceFromSplit(a, b, pat, rep, 0);
    assert (a + b)[0..] == a + b;
    assert a[0..] == a;
  }

  /** In the placeholder of a safe key, `{` appears only at the start and `}` only at the end. */
  lemma PlaceholderBraces(key: string)
    requires SafeKey(key)
    ensures forall m :: 0 <= m < |Placeholder(key)| ==> (Placeholder(key)[m] == '{' <==> m < 2)
    ensures forall m :: 0 <= m < |Placeholder(key)| ==> (Placeholder(key)[m] == '}' <==> m >= |key| + 2)
  {
    forall m | 2 <= m < |key| + 2
      ensures Placeholder(key)[m] != '{' && Placeholder(key)[m] != '}'
    {
      assert !IsRegexMeta(key[m - 2]);
    }
  }

  lemma PlaceholderInjective(j: string, k: string)
    ensures Placeholder(j) == Placeholder(k) ==> j == k
  {
    if Placeholder(j) == Placeholder(k) {
      assert Placeholder(j)[2..|j| + 2] == j;
      assert Placeholder(k)[2..|k| + 2] == k;
    }
  }

  /** No placeholder for a safe key starts before a placeholder and ends inside it. */
  lemma NoMatchIntoPlaceholder(a: string, k: string, rest: string, j: string)
    requires SafeKey(j)
    ensures NoMatchAcross(a + (Placeholder(k) + rest), Placeholder(j), |a|)
  {
    var s := a + (Placeholder(k) + rest);
    var pj := Placeholder(j);
    PlaceholderBraces(j);
    forall i | 0 <= i < |a| < i + |pj|
      ensures !MatchAt(s, pj, i)
    {
      MatchChar(s, pj, i, |a| - i);
      MatchChar(s, pj, i, |a| - i + 1);
    }
  }

  /** No placeholder for a safe key starts inside a placeholder and ends after it. */
  lemma NoMatchOutOfPlaceholder(k: string, b: string, j: string)
    requires SafeKey(k) && SafeKey(j)
    ensures NoMatchAcross(Placeholder(k) + b, Placeholder(j), |Placeholder(k)|)
  {
    var pk := Placeholder(k);
    var s := pk + b;
    var pj := Placeholder(j);
    PlaceholderBraces(k);
    PlaceholderBraces(j);
    forall i | 0 <= i < |pk| < i + |pj|
      ensures !MatchAt(s, pj, i)
    {
      MatchChar(s, pj, i, |pk| - i - 1);
      MatchChar(s, pj, i, |pk| - i - 2);
    }
  }

  /** A placeholder for one safe key contains no placeholder for a different safe key. */
  lemma PlaceholderNotInOther(k: string, j: string)
    requires SafeKey(k) && SafeKey(j) && k != j
    ensures !Occurs(Placeholder(j), Placeholder(k))
  {
    var pk := Placeholder(k);
    var pj := Placeholder(j);
    PlaceholderBraces(k);
    PlaceholderBraces(j);
    PlaceholderInjective(j, k);
    forall i | 0 <= i <= |pk|
      ensures !MatchAt(pk, pj, i)
    {
      MatchChar(pk, pj, i, 0);
      MatchChar(pk, pj, i, 1);
      MatchChar(pk, pj, i, |pj| - 1);
      MatchChar(pk, pj, i, |pj| - 2);
    }
  }

  /** One pass for another safe key rewrites the text on either side of a placeholder only. */
  lemma ReplaceAllAroundPlaceholder(a: string, k: string, b: string, j: string, rep: string)
    requires SafeKey(k) && SafeKey(j) && k != j
    ensures ReplaceAll(a + Placeholder(k) + b, Placeholder(j), rep)
         == ReplaceAll(a, Placeholder(j), rep) + Placeholder(k) + ReplaceAll(b, Placeholder(j), rep)
  {
    var pj := Placeholder(j);
    var pk := Placeholder(k);
    assert ReplaceAll(a + (pk + b), pj, rep) == ReplaceAll(a, pj, rep) + ReplaceAll(pk + b, pj, rep) by {
      NoMatchIntoPlaceholder(a, k, b, j);
      ReplaceAllSplit(a, pk + b, pj, rep);
    }
    assert ReplaceAll(pk + b, pj, rep) == ReplaceAll(pk, pj, rep) + ReplaceAll(b, pj, rep) by {
      NoMatchOutOfPlaceholder(k, b, j);
      ReplaceAllSplit(pk, b, pj, rep);
    }
    assert ReplaceAll(pk, pj, rep) == pk by {
      PlaceholderNotInOther(k, j);
      ReplaceAllNoMatch(pk, pj, rep);
    }
    Assoc(a, pk, b);
    Assoc(ReplaceAll(a, pj, rep), pk, ReplaceAll(b, pj, rep));
  }

  /**
   * A placeholder whose key is not listed survives verbatim, and the text on either side of it
   * is substituted as if the placeholder were a wall.
   */
  lemma {:induction false} SubstituteKeepsUnlistedPlaceholder(a: string, k: string, b: string, vars: seq<Variable>)
    requires SafeKeys(vars) && SafeKey(k)
    requires forall i :: 0 <= i < |vars| ==> vars[i].key != k
    ensures Substitute(a + Placeholder(k) + b, vars)
         == Substitute(a, vars) + Placeholder(k) + Substitute(b, vars)
    decreases |vars|
  {
    if |vars| > 0 {
      var pj := Placeholder(vars[0].key);
      var rep := vars[0].value;
      ReplaceAllAroundPlaceholder(a, k, b, vars[0].key, rep);
      SubstituteKeepsUnlistedPlaceholder(ReplaceAll(a, pj, rep), k, ReplaceAll(b, pj, rep), vars[1..]);
    }
  }

  /** A string that is exactly the pattern is replaced as a whole. */
  lemma ReplaceWhole(pat: string, rep: string)
    requires |pat| > 0
    ensures ReplaceAll(pat, pat, rep) == rep
  {
    assert pat[0..|pat|] == pat;
    assert pat[|pat|..] == [];
  }

  /** Example: the `url` variable resolves the host part of a request URL. */
  lemma ExampleHostUrl()
    ensures Substitute("{{url}}/path", [Variable("url", "http://h")]) == "http://h/path"
  {
    var t := "{{url}}/path";
    var p := Placeholder("url");
    assert t[0..|p|] == p;
    ScanMatch(t, p, "http://h", 0);
    assert t[0..] == t;
    assert t[|p|..] == "/path";
  }

  /**
   * A later variable sees what earlier ones inserted: a value that is itself a placeholder is
   * resolved when its variable comes later in the list.
   */
  lemma ExampleLaterSeesEarlier()
    ensures Substitute("{{a}}", [Variable("a", "{{b}}"), Variable("b", "x")]) == "x"
  {
    ReplaceWhole(Placeholder("a"), Placeholder("b"));
    ReplaceWhole(Placeholder("b"), "x");
  }

  /** ... and it stays verbatim when its variable comes earlier, so list order matters. */
  lemma ExampleEarlierMissesLater()
    ensures Substitute("{{a}}", [Variable("b", "x"), Variable("a", "{{b}}")]) == "{{b}}"
  {
    var pa := Placeholder("a");
    var pb := Placeholder("b");
    MatchChar(pa, pb, 0, 2);
    ScanKeep(pa, pb, "x", 0);
    ScanShort(pa, pb, "x", 1);
    assert pa[0..] == pa;
    assert [pa[0]] + pa[1..] == pa;
    assert ReplaceAll(pa, pb, "x") == pa;
    ReplaceWhole(pa, pb);
    assert pa == "{{a}}" && pb == "{{b}}";
  }

  /**
   * Substituting twice is not always substituting once, even when no value contains a
   * placeholder: an inserted value can complete a placeholder with the text around it.
   */
  lemma ExampleNotIdempotent()
    ensures Substitute("{{a{{ab}}}}", [Variable("ab", "b")]) == "{{ab}}"
    ensures Substitute(Substitute("{{a{{ab}}}}", [Variable("ab", "b")]), [Variable("ab", "b")]) == "b"
  {
    var v := Variable("ab", "b");
    SubstituteSingle("{{a{{ab}}}}", v);
    NotIdempotentFirstPass();
    SubstituteSingle("{{ab}}", v);
    ReplaceWhole(Placeholder("ab"), "b");
    assert Placeholder("ab") == "{{ab}}";
  }

  /**
   * When two variables share a key and the first value builds no new placeholder, the first one
   * wins: its pass removes every placeholder present, so the later variable finds nothing.
   */
  lemma ExampleFirstDuplicateWins()
    ensures Substitute("{{k}}", [Variable("k", "1"), Variable("k", "2")]) == "1"
  {
    var v1, v2 := Variable("k", "1"), Variable("k", "2");
    var p := Placeholder("k");
    assert [v1, v2][1..] == [v2];
    ReplaceWhole(p, "1");
    SubstituteSingle("1", v2);
    ScanShort("1", p, "2", 0);
    assert "1"[0..] == "1";
    assert p == "{{k}}";
  }

  /**
   * ... but a later variable with the same key acts on the placeholders the first pass leaves:
   * an empty first value rebuilds `{{k}}` from the text around it, and the second variable wins.
   */
  lemma ExampleDuplicateSeesRebuiltPlaceholder()
    ensures Substitute("{{k{{k}}}}", [Variable("k", ""), Variable("k", "2")]) == "2"
  {
    var v1, v2 := Variable("k", ""), Variable("k", "2");
    assert [v1, v2][1..] == [v2];
    RebuiltPlaceholderFirstPass();
    SubstituteSingle("{{k}}", v2);
    ReplaceWhole(Placeholder("k"), "2");
    assert Placeholder("k") == "{{k}}";
  }

  /** The first pass of `ExampleDuplicateSeesRebuiltPlaceholder`: removing the inner `{{k}}` leaves `{{k}}`. */
  lemma RebuiltPlaceholderFirstPass()
    ensures ReplaceAll("{{k{{k}}}}", Placeholder("k"), "") == "{{k}}"
  {
    var t := "{{k{{k}}}}";
    var p := Placeholder("k");
    MatchChar(t, p, 0, 3);
    MatchChar(t, p, 1, 2);
    MatchChar(t, p, 2, 0);
    assert t[3..3 + |p|] == p;
    ReplaceAllFirstMatch(t, p, "", 3);
    assert t[..3] == "{{k";
    assert t[3 + |p|..] == "}}";
    ScanShort(t, p, "", 3 + |p|);
  }

  /** The first pass of `ExampleNotIdempotent`: the inserted `b` completes a new placeholder. */
  lemma NotIdempotentFirstPass()
    ensures ReplaceAll("{{a{{ab}}}}", Placeholder("ab"), "b") == "{{ab}}"
  {
    var t := "{{a{{ab}}}}";
    var p := Placeholder("ab");
    forall j | 0 <= j < 3
      ensures !MatchAt(t, p, j)
    {
      MatchChar(t, p, j, 3 - j);
    }
    assert t[3..3 + |p|] == p;
    ReplaceAllFirstMatch(t, p, "b", 3);
    assert t[..3] == "{{a";
    assert t[3 + |p|..] == "}}";
    ScanShort(t, p, "b", 3 + |p|);
  }

  /** Substituting with a single variable is one replacement pass. */
  lemma SubstituteSingle(t: string, v: Variable)
    ensures Substitute(t, [v]) == ReplaceAll(t, Placeholder(v.key), v.value)
  {
    assert [v][1..] == [];
  }
}

=== FILE: summary.dfy ===
/**
 * The end-of-test summary (`handleSummary`): for every registered endpoint name, the runtime's
 * data for its three metrics, looked up by name, or an empty object where the runtime has none.
 *
 * The runtime's `data.metrics` is a map from metric name to metric data; which metrics it holds
 * is the runtime's business, so the lookup is stated for any map, and `Reports` describes the map
 * the runtime hands over for a registry. Serialising the summary to JSON is not modelled.
 */
module Summary {
  import opened Collection
  import opened Metrics

  /** The metric names registered for an endpoint. */
  function DurationMetric(name: string): string { "http_req_duration_" + name }
  function FailedMetric(name: string): string { "http_req_failed_" + name }
  function RequestsMetric(name: string): string { "http_reqs_" + name }

  /** Metric names of different endpoints, or of different kinds, never coincide. */
  lemma MetricNamesDistinct(a: string, b: string)
    ensures DurationMetric(a) == DurationMetric(b) ==> a == b
    ensures FailedMetric(a) == FailedMetric(b) ==> a == b
    ensures RequestsMetric(a) == RequestsMetric(b) ==> a == b
    ensures DurationMetric(a) != FailedMetric(b)
    ensures DurationMetric(a) != RequestsMetric(b)
    ensures FailedMetric(a) != RequestsMetric(b)
  {
    var d, f, q := DurationMetric(a), FailedMetric(a), RequestsMetric(a);
    if DurationMetric(a) == DurationMetric(b) {
      assert a == d[18..] == DurationMetric(b)[18..] == b;
    }
    if FailedMetric(a) == FailedMetric(b) {
      assert a == f[16..] == FailedMetric(b)[16..] == b;
    }
    if RequestsMetric(a) == RequestsMetric(b) {
      assert a == q[10..] == RequestsMetric(b)[10..] == b;
    }
    assert d[9] == 'd' && FailedMetric(b)[9] == 'f';
    assert d[8] == '_' && RequestsMetric(b)[8] == 's';
    assert f[8] == '_';
  }

  /** The data the runtime keeps for one metric: a trend's samples or a counter's total. */
  datatype MetricData = TrendData(samples: seq<nat>) | CounterData(count: nat)

  /** A summary field: the runtime's metric data, or `{}` when it has none. */
  datatype Field = Reported(data: MetricData) | EmptyObject

  datatype SummaryEntry = SummaryEntry(httpReqDuration: Field, httpReqFailed: Field, httpReqs: Field)

  /** `data.metrics[key] || {}`: a metric object is always truthy. */
  function Lookup(metrics: map<string, MetricData>, key: string): (f: Field)
    ensures f.EmptyObject? <==> key !in metrics
    ensures f.Reported? ==> f.data == metrics[key]
  {
    if key in metrics then Reported(metrics[key]) else EmptyObject
  }

  /**
   * `handleSummary`: one entry per registered endpoint and none other, each with exactly the
   * three fields, each field the runtime's data for that endpoint's metric or `{}`.
   */
  function HandleSummary(reg: Registry, metrics: map<string, MetricData>): (summary: map<string, SummaryEntry>)
    ensures summary.Keys == reg.Keys
    ensures forall name :: name in summary ==>
              && summary[name].httpReqDuration == Lookup(metrics, DurationMetric(name))
              && summary[name].httpReqFailed == Lookup(metrics, FailedMetric(name))
              && summary[name].httpReqs == Lookup(metrics, RequestsMetric(name))
  {
    map name | name in reg ::
      SummaryEntry(Lookup(metrics, DurationMetric(name)), Lookup(metrics, FailedMetric(name)),
                   Lookup(metrics, RequestsMetric(name)))
  }

  /**
   * The metric map the runtime reports for a registry: an endpoint that recorded at least one
   * request has all three of its metrics, with the registry's samples and totals; an endpoint
   * that recorded nothing has none of them. Other metrics (the runtime's own) may be present.
   */
  predicate Reports(reg: Registry, metrics: map<string, MetricData>) {
    forall name :: name in reg ==>
      if reg[name].requests > 0 then
        && Holds(metrics, DurationMetric(name), TrendData(reg[name].durations))
        && Holds(metrics, FailedMetric(name), CounterData(reg[name].failed))
        && Holds(metrics, RequestsMetric(name), CounterData(reg[name].requests))
      else
        && DurationMetric(name) !in metrics
        && FailedMetric(name) !in metrics
        && RequestsMetric(name) !in metrics
  }

  predicate Holds(metrics: map<string, MetricData>, key: string, data: MetricData) {
    key in metrics && metrics[key] == data
  }

  predicate HasPrefix(s: string, p: string) {
    |p| <= |s| && s[..|p|] == p
  }

  lemma PrefixChar(s: string, p: string, m: int)
    ensures HasPrefix(s, p) && 0 <= m < |p| ==> s[m] == p[m]
  {
    if HasPrefix(s, p) && 0 <= m < |p| {
      assert s[..|p|][m] == s[m];
    }
  }

  /** The names of the metrics the runtime holds for a registry: all three of every sampled endpoint. */
  function ExportKeys(reg: Registry): set<string> {
    var sampled := set name | name in reg && reg[name].requests > 0;
    (set name | name in sampled :: DurationMetric(name))
    + (set name | name in sampled :: FailedMetric(name))
    + (set name | name in sampled :: RequestsMetric(name))
  }

  /** The data of a metric, read back from the registry entry its name refers to. */
  function ExportValue(reg: Registry, key: string): MetricData {
    if HasPrefix(key, "http_req_duration_") && key[18..] in reg then TrendData(reg[key[18..]].durations)
    else if HasPrefix(key, "http_req_failed_") && key[16..] in reg then CounterData(reg[key[16..]].failed)
    else if HasPrefix(key, "http_reqs_") && key[10..] in reg then CounterData(reg[key[10..]].requests)
    else CounterData(0)
  }

  /** A metric map the runtime could report for a registry: exactly the metrics that were sampled. */
  function Export(reg: Registry): map<string, MetricData> {
    map key | key in ExportKeys(reg) :: ExportValue(reg, key)
  }

  /** Each registered endpoint's metric names are read back to that endpoint and kind. */
  lemma ExportValueOfName(reg: Registry, name: string)
    requires name in reg
    ensures ExportValue(reg, DurationMetric(name)) == TrendData(reg[name].durations)
    ensures ExportValue(reg, FailedMetric(name)) == CounterData(reg[name].failed)
    ensures ExportValue(reg, RequestsMetric(name)) == CounterData(reg[name].requests)
  {
    var d, f, q := DurationMetric(name), FailedMetric(name), RequestsMetric(name);
    assert d[..18] == "http_req_duration_" && d[18..] == name;
    assert f[..16] == "http_req_failed_" && f[16..] == name;
    assert f[9] == 'f' && q[8] == 's';
    PrefixChar(f, "http_req_duration_", 9);
    PrefixChar(q, "http_req_duration_", 8);
    PrefixChar(q, "http_req_failed_", 8);
    assert q[..10] == "http_reqs_" && q[10..] == name;
  }

  /** The runtime's report is always possible: `Export` reports every registry. */
  lemma ExportReports(reg: Registry)
    ensures Reports(reg, Export(reg))
  {
    var metrics := Export(reg);
    forall name | name in reg
      ensures if reg[name].requests > 0 then
                && Holds(metrics, DurationMetric(name), TrendData(reg[name].durations))
                && Holds(metrics, FailedMetric(name), CounterData(reg[name].failed))
                && Holds(metrics, RequestsMetric(name), CounterData(reg[name].requests))
              else
                && DurationMetric(name) !in metrics
                && FailedMetric(name) !in metrics
                && RequestsMetric(name) !in metrics
    {
      ExportValueOfName(reg, name);
      if reg[name].requests == 0 {
        forall other | other in reg && reg[other].requests > 0
          ensures DurationMetric(name) != DurationMetric(other)
          ensures DurationMetric(name) != FailedMetric(other)
          ensures DurationMetric(name) != RequestsMetric(other)
          ensures FailedMetric(name) != DurationMetric(other)
          ensures FailedMetric(name) != FailedMetric(other)
          ensures FailedMetric(name) != RequestsMetric(other)
          ensures RequestsMetric(name) != DurationMetric(other)
          ensures RequestsMetric(name) != FailedMetric(other)
          ensures RequestsMetric(name) != RequestsMetric(other)
        {
          MetricNamesDistinct(name, other);
          MetricNamesDistinct(other, name);
        }
      }
    }
  }

  /** Under the report `Export` gives, each endpoint's summary holds its samples and totals, or `{}`. */
  lemma SummaryOfExport(reg: Registry)
    ensures forall name :: name in reg ==> HandleSummary(reg, Export(reg))[name] == ExpectedEntry(reg[name])
  {
    ExportReports(reg);
    SummaryOfReport(reg, Export(reg));
  }

  /** The summary entry of an endpoint under the runtime's report of the registry. */
  function ExpectedEntry(m: EndpointMetrics): SummaryEntry {
    if m.requests > 0 then
      SummaryEntry(Reported(TrendData(m.durations)), Reported(CounterData(m.failed)),
                   Reported(CounterData(m.requests)))
    else SummaryEntry(EmptyObject, EmptyObject, EmptyObject)
  }

  /**
   * Under the runtime's report, each endpoint's summary carries its recorded samples and totals,
   * or three empty objects when it recorded nothing.
   */
  lemma SummaryOfReport(reg: Registry, metrics: map<string, MetricData>)
    requires Reports(reg, metrics)
    ensures forall name :: name in reg ==> HandleSummary(reg, metrics)[name] == ExpectedEntry(reg[name])
  {
  }

  /**
   * After one iteration over `apiList` from a fresh registry in which every method is GET or POST,
   * the summary has one entry per endpoint name, holding the durations of that name's responses
   * in order, the number of its non-200 responses and the number of its requests.
   */
  lemma SummaryAfterIteration(apis: seq<ApiEntry>, responses: seq<Response>,
                              metrics: map<string, MetricData>, name: string)
    requires |responses| == |apis| && AllSupported(apis)
    requires Reports(Run(Register(apis), apis, responses).registry, metrics)
    requires name in Names(apis)
    ensures var summary := HandleSummary(Run(Register(apis), apis, responses).registry, metrics);
            && summary.Keys == Names(apis)
            && summary[name] == SummaryEntry(Reported(TrendData(DurationsFor(apis, responses, name))),
                                             Reported(CounterData(FailuresFor(apis, responses, name))),
                                             Reported(CounterData(CountFor(apis, name))))
  {
    var reg := Register(apis);
    var final := Run(reg, apis, responses).registry;
    assert Known(reg, apis);
    RunTotals(reg, apis, responses, name);
    assert reg[name] == Fresh;
    assert [] + DurationsFor(apis, responses, name) == DurationsFor(apis, responses, name);
    assert final[name] == EndpointMetrics(DurationsFor(apis, responses, name),
                                          FailuresFor(apis, responses, name), CountFor(apis, name));
    CountForPositive(apis, name);
    SummaryOfReport(final, metrics);
  }
}

=== FILE: wrappers.dfy ===
/** Small failure-carrying datatypes used by the rest of the model. */
module Wrappers {

  /** A value that may be absent, as an optional field of the collection document. */
  datatype Option<+T> = None | Some(value: T) {

    /** The value, or `default` when absent (JavaScript's `x || default`). */
    function GetOr(default: T): T {
      match this
      case Some(v) => v
      case None => default
    }
  }

  /** The outcome of an operation that the script would abort with a thrown error. */
  datatype Result<+R, +E> = Success(value: R) | Failure(error: E)
}
